=== FILE: README.md ===
# EventStoreService: a Dafny model of the NestJS/Kafka event bridge

`EventStoreService` connects a NestJS CQRS event bus to a Kafka cluster. It
publishes each event the application raises to the topic named after the
event's class. It also subscribes to one topic per registered event class,
rebuilds an event from each consumed message, and pushes it into the event
bus's stream.

This project models the service's decision logic as pure functions. Each
operation takes the service's state and returns the effects it has on the
outside world. The effects are Kafka client calls (`CreateClient`,
`Subscribe`, `Run`, `Send`, `DisconnectProducer`, …), pushes into the local
stream (`Next`), the "not handled" warning (`Warn`), the "no handlers"
report (`NoHandlers`) and exceptions that escape (`Fault`).

- `json.dfy` (module `Json`) covers JSON values and the JavaScript built-ins
  the bridge calls: `JSON.parse`, `JSON.stringify` and `Object.values`. It
  also has the `undefined`/`null`/value distinction.
- `events.dfy` (module `Events`) holds events as a class name plus ordered
  fields, and event classes as a name plus what the constructor does with
  positional arguments.
- `constants.dfy` (module `Constants`) holds configuration objects, the
  shipped defaults and the shallow object-spread merge.
- `options.dfy` (module `Interfaces`) holds the options object.
- `event_store_service.dfy` (module `EventStore`) holds the service's state
  and every operation: `addEvents`, the constructor, `connect`/`subscribe`,
  `eachMessage`, `publish`, `disconnect`, `bridgeEventsTo` and
  `onModuleInit`.
- `bridge_properties.dfy` (module `BridgeProperties`) holds lemmas that
  relate several operations.

## Notes on the code

- Closing the connections. `disconnect` awaits `producer?.disconnect()` and
  then `consumer?.disconnect()`, so a rejected producer close skips the
  consumer close. `EventStore.Disconnect` models this with its
  `producerRejects` parameter.
- Where the registry comes from. The registry comes only from
  `options.events`, which the options interface does not declare. The
  declared `eventHandlers` option is never read
  (`BridgeProperties.EventHandlersIgnored`).
- Duplicate registrations. The list of classes keeps duplicates, and
  connecting subscribes once per list entry. Only the name lookup is
  last-write-wins.
- Consumer exceptions. The `try`/`catch` in `subscribe` wraps only the
  subscribe setup. An exception inside `eachMessage` (unparsable JSON, a
  `null` value or payload, a throwing constructor, no bound stream) escapes
  to the Kafka client. The model records it as a `Fault` effect.
- Publish errors. `publish` has no `try`/`catch`, so a failed send rejects
  the promise `publish` returns.
- Connection state. There is no connection-state machine. The code only
  tracks whether the producer and consumer handles have been created.
- The `IEvents` type. The service imports `IEvents` from the options
  interface file, which does not declare it. The model takes it to be a list
  of event classes.
- A `null` batch. The parameter default of `addEvents` replaces only
  `undefined`. An explicit `null` reaches the array spread, which throws a
  `TypeError`, so the constructor fails (`EventStore.Create` returns `None`).

## Model

| member | source | states |
|---|---|---|
| `EventStore.AddEvents` | src/event-store.service.ts:145-150 | The batch is appended to the class list in order, duplicates kept, and an absent batch adds nothing. Every name in the accumulated list maps to the last class with that name. Keys are never removed, other keys keep their classes, and no other field of the service changes. The registry invariant is preserved. |
| `EventStore.IndexLookup` | src/event-store.service.ts:147-149 | The map loop over the accumulated list stores every listed name. Each name is bound to the class at its last position, and keys absent from the list keep their old value. |
| `EventStore.LastIndex` | src/event-store.service.ts:147-149 | The last position holding a name: that position holds the name and no later position does. This is the independent meaning of "the last write wins". |
| `EventStore.Create` | src/event-store.service.ts:48-55 | Construction fails exactly when `options.events` is `null`, because the spread in `addEvents` throws on it. Otherwise the constructor registers `options.events`, with `undefined` registering nothing. The lookup then holds exactly the registered names, each bound to its last class. Both configurations are the caller's options spread over the defaults. No producer, consumer or stream exists yet. |
| `Constants.Spread` | src/event-store.service.ts:53-54 | The merged keys are the defaults' keys plus the caller's keys. Every key the caller supplies takes the caller's value. Every default key the caller omits keeps the default value, and an absent caller object changes nothing. |
| `Constants.SpreadNothing` | src/event-store.service.ts:53-54 | Spreading an absent or empty caller object over the defaults yields exactly the defaults. |
| `Constants.DefaultClientConfigShape` | src/constants.ts:5-10 | The default client configuration has exactly one key, `brokers`, equal to `['localhost:9092']`. It has no `clientId`, although a default client id is declared. |
| `Constants.DefaultConsumerConfigShape` | src/constants.ts:6-14 | The default consumer configuration has exactly one key, `groupId`, equal to `'nestjs-event-store-module-consumer'`. |
| `EventStore.Subscriptions` | src/event-store.service.ts:85-93 | There is one subscribe request per class, in list order with duplicates kept. Each request has topic equal to the class name and `fromBeginning` false. |
| `EventStore.SubscribeEffects` | src/event-store.service.ts:83-99 | The subscribe requests for all classes come first, then `run`. With no classes there is only the "no handlers" report, and `run` is issued exactly when there is at least one class. |
| `EventStore.Connect` | src/event-store.service.ts:70-99 | The opening is: create the client with the merged client configuration, create and connect the producer, then create the consumer with the merged consumer configuration and connect it. Nothing subscribes or runs before both are connected. What follows is exactly the subscribe phase: one subscribe request per class, in order, then `run`, or only the "no handlers" report when no class is registered. Both handles exist afterwards. |
| `EventStore.BridgeEventsTo` | src/event-store.service.ts:141-143 | The given stream is always bound. After rebinding, every message from which the registered class builds an event pushes that same event into the new stream, with no new subscription, and every push goes to the new stream. The registry, both configurations and both handles are unchanged. |
| `EventStore.OnModuleInit` | src/event-store.service.ts:57-64 | Initialisation connects, which creates both handles. It binds the event bus's stream and keeps the registry unchanged. |
| `EventStore.EachMessage` | src/event-store.service.ts:100-114 | Every message has exactly one effect. A push happens exactly when the value parses, the topic is registered, the payload is not null, the class's constructor does not throw and a stream is bound. The pushed event is the one the registered class builds from the payload's values, in order. A warning naming the topic happens exactly when the value parses and the topic is unregistered. Each exception names its cause, in evaluation order: a null message value, text that is not JSON, a null payload on a registered topic, a throwing constructor, and a built event with no bound stream. |
| `EventStore.Deliver` | src/event-store.service.ts:99-115 | Consuming a sequence of messages yields, for each message in order, the effect `eachMessage` has on it. The trace stops right after the first escaping exception and is complete when no message raises one. |
| `EventStore.Publish` | src/event-store.service.ts:125-139 | `undefined` and `null` produce no effect. Any event produces exactly one effect. With a producer, that effect is a send to the topic named after the event's class, holding one message that parses back to the event's fields. Without a producer, it is an exception. |
| `EventStore.Disconnect` | src/event-store.service.ts:120-123 | Each existing handle gets exactly one close request, and the producer's comes first. A rejected producer close replaces the consumer's close with the rejection, so there are at most two effects. The consumer is closed exactly when it exists and no rejected producer close came before it. Handles that were never created are not closed, so a service that never connected requests nothing. |
| `Json.Stringify` | src/event-store.service.ts:135 | Serialised JSON parses back to the value that was serialised. |
| `Json.Parse` | src/event-store.service.ts:101 | Parsing fails exactly on text that is not JSON. |
| `Json.ObjectValues` | src/event-store.service.ts:104 | `Object.values` throws exactly on `null`. It lists an object's member values in key order, an array's elements, a string's characters as one-character strings, and nothing for a number or a boolean. |
| `Json.MemberValues` | src/event-store.service.ts:104 | An object's values, one per member, in member order. |
| `Events.Serialize` | src/event-store.service.ts:133-136 | A published event's payload parses to one object holding exactly the event's fields. The class name is not in the payload. |
| `Events.Assign` | src/event-store.service.ts:103-105 | A constructor with parameter properties sets parameter i to argument i, for as many parameters as there are arguments. |
| `Events.ParameterClassRebuilds` | src/event-store.service.ts:103-105 | A class whose constructor parameters are an event's field keys, in order, rebuilds that event from its own field values. |
| `BridgeProperties.AbsentBatchKeepsService` | src/event-store.service.ts:145-149 | On a service that satisfies the registry invariant, `addEvents()` with no batch changes nothing: the list is the same and the lookup is rebuilt to itself. |
| `BridgeProperties.IndexOverPrefix` | src/event-store.service.ts:146-149 | Rebuilding the lookup from a longer list over the lookup of its prefix gives the same map as rebuilding from the longer list alone. |
| `BridgeProperties.AddEventsAccumulates` | src/event-store.service.ts:145-150 | Adding two batches one after the other leaves the service exactly as adding their concatenation once. |
| `BridgeProperties.EventHandlersIgnored` | src/event-store.service.ts:48-55 | The declared `eventHandlers` option has no effect on the constructed service. |
| `BridgeProperties.DeclaredOptionsSubscribeNothing` | src/event-store.service.ts:52 | Options that carry only declared fields register nothing. Connecting then reports "no handlers" and issues no subscribe request and no `run`. |
| `BridgeProperties.ClientConfigWithoutOverride` | src/event-store.service.ts:53 | Without client options, the client configuration is exactly the default: the local broker and no `clientId`. |
| `BridgeProperties.GroupIdWithoutOverride` | src/event-store.service.ts:54 | Unless the caller supplies a `groupId`, the consumer's group id is the default one. |
| `BridgeProperties.CallerOptionsWin` | src/event-store.service.ts:53-54 | A key the caller supplies takes the caller's value, even `undefined`. Without caller keys, the only keys are the defaults' `brokers` and `groupId`. |
| `BridgeProperties.SubscribeCountAppend` | src/event-store.service.ts:85-93 | The number of subscribe requests in concatenated effects is the sum of the numbers in each part. |
| `BridgeProperties.SubscribeCountNone` | src/event-store.service.ts:85-93 | Effects with no subscribe request count zero subscribe requests. |
| `BridgeProperties.SubscriptionsCount` | src/event-store.service.ts:85-93 | The subscribe requests for a list of classes number exactly the list's length, duplicates included. |
| `BridgeProperties.SubscribedTopicsRoute` | src/event-store.service.ts:85-113 | Under the registry invariant, connecting issues exactly one subscribe request per registered class. Every subscribed topic is in the lookup, so a decodable message on a registered name is never reported as unhandled. |
| `BridgeProperties.EmptyRegistryNeverRuns` | src/event-store.service.ts:94-97 | With no registered class, connecting ends with the "no handlers" report and issues neither a subscribe request nor `run`. |
| `BridgeProperties.PublishRoutesBack` | src/event-store.service.ts:100-148 | Take an event of a registered class that is the last one registered under its name and rebuilds events from their field values. Publishing it sends exactly one message to its class's topic, and consuming that message pushes the same event back. |
| `BridgeProperties.WarningDoesNotStopConsumption` | src/event-store.service.ts:107-113 | A message on an unregistered topic yields only a warning, and the messages after it are consumed as if it had not been there. |
| `BridgeProperties.DeliverInOrder` | src/event-store.service.ts:99-106 | When every message routes, consuming pushes exactly one event per message, in delivery order. Each event is built by the class registered under that message's topic from the message's decoded values. |
| `BridgeProperties.DisconnectBeforeConnect` | src/event-store.service.ts:120-123 | Disconnecting a freshly constructed service, which has never connected, requests nothing. |
| `BridgeProperties.DisconnectAfterInit` | src/event-store.service.ts:57-123 | After initialisation, disconnecting closes the producer and then the consumer. |
| `BridgeProperties.TwoTopicsScenario` | src/event-store.service.ts:85-99 | With classes `OrderPlaced` and `OrderCancelled` registered, connecting subscribes to those two topics, in that order, and then runs the consumer. |
| `BridgeProperties.FooRegistered` | src/event-store.service.ts:145-149 | Registering the single class `Foo` binds exactly the topic `Foo`, to that class. |
| `BridgeProperties.FooBuilt` | src/event-store.service.ts:103-105 | With `Foo` registered, the payload `{"id":"1","amount":"42"}` yields a `Foo` whose fields are `id` = "1" and `amount` = "42", in that order. |
| `BridgeProperties.FooScenario` | src/event-store.service.ts:100-106 | The message `{"id":"1","amount":"42"}` on topic `Foo` becomes exactly one `Foo` event with fields `id` = "1" and `amount` = "42", in that order. |

## Left out

- Kafka transport: creating the client, producer and consumer and connecting
  them are recorded as effects only. Connection failures and the Kafka
  client's own behaviour (retries, partition assignment, scheduling of
  `run`) are not modelled, because that code is not part of this model.
- A rejected subscribe request (the `Promise.all` rejection that the
  `try`/`catch` at src/event-store.service.ts:116-118 logs) is not modelled,
  because whether Kafka accepts a subscription is the transport's answer.
- `EventStore.Deliver`: the trace ends at the first escaping exception.
  Whether the Kafka client then retries the message, restarts the consumer
  or stops is not visible and not modelled.
- `EventStore.Disconnect`: a rejected consumer close is not modelled, since
  nothing follows it. Whether closing twice is harmless depends on the Kafka
  client. The model only shows that the handles are not cleared, so a second
  call issues the same close requests again.
- The unawaited `connect()` in `onModuleInit` is not modelled. The model
  binds the stream before any message is consumed, which is what the awaits
  inside `connect` ensure in practice. The event-bus internals
  (`eventBus.subject$`, `eventBus.publisher = this`) are not modelled
  either, because they are framework state.
- Logging is left out, except the "not handled" warning and the "no
  handlers" report, which are observable outcomes.
- The lookup object `eventsForSearch` is a plain object. The model does not
  see names it inherits from `Object.prototype` (`constructor`, `toString`,
  `__proto__`). Such a topic would only be consumed if a class of that name
  were registered, in which case the own key is found.
- The JSON details are not modelled. That covers `Object.values` listing
  integer-like keys first, `JSON.stringify` dropping `undefined` fields and
  functions, and numbers being IEEE doubles (they are integers here). Object
  members are assumed to have distinct keys, as every JavaScript object has.
- `EventStore.Publish`: event fields are JSON values by construction, so
  `JSON.stringify` is taken to be lossless and never to throw. In JavaScript
  a `Date` field is sent as a string, a nested class instance as a plain
  object and a `Map` or `Set` as `{}`, so the consumer does not rebuild the
  same event. A `BigInt` field or a cyclic event makes `JSON.stringify` throw
  before `send`, so `publish` rejects with no send. The round trip of
  `BridgeProperties.PublishRoutesBack` holds only for events whose fields are
  plain JSON values.
- `Json.ObjectValues`: a string's characters are Dafny characters (Unicode
  scalar values), whereas JavaScript lists UTF-16 code units. A character
  outside the Basic Multilingual Plane is one value here and two in
  JavaScript, and lone surrogates cannot be represented.
- `Events.Assign`: a constructor called with fewer arguments than
  parameters leaves the missing fields `undefined`. The model omits them,
  because `undefined` is not a JSON value.
- `event.constructor.name` is taken to be the class's declared name.
  Minified or anonymous class names are not modelled.
- src/event-store.module.ts (dependency-injection registration) and the
  `EVENT_STORE_OPTIONS` token are not modelled, because they are wiring. `onModuleDestroy` only awaits `disconnect` and logs, so
  it is modelled by `EventStore.Disconnect`.

=== FILE: bridge_properties.dfy ===
/**
 Properties that relate several of the bridge's operations: how batches
 accumulate in the registry, what the merged configuration holds, that
 every subscribed topic is routed, that a published event comes back as
 itself, and that inbound events keep their delivery order.
 */
module BridgeProperties {
  import opened Json
  import opened Events
  import opened Constants
  import opened Interfaces
  import opened EventStore

  // ---------------------------------------------------------------------
  // Registry
  // ---------------------------------------------------------------------

  /** An absent batch changes nothing: the list is the same and the lookup is rebuilt to itself. */
  lemma AbsentBatchKeepsService(s: Service)
    requires Indexed(s)
    ensures AddEvents(s, None) == s
  {
    var r := AddEvents(s, None);
    assert r.events == s.events;
    assert r.eventsForSearch.Keys == s.eventsForSearch.Keys;
    forall n | n in s.eventsForSearch
      ensures r.eventsForSearch[n] == s.eventsForSearch[n]
    {
    }
    assert r.eventsForSearch == s.eventsForSearch;
  }

  /** Re-indexing a longer list over an index of its prefix gives the index of the longer list alone. */
  lemma IndexOverPrefix(m: map<string, EventClass>, xs: seq<EventClass>, ys: seq<EventClass>)
    ensures Index(Index(m, xs), xs + ys) == Index(m, xs + ys)
  {
    var first := Index(m, xs);
    IndexLookup(m, xs);
    IndexLookup(first, xs + ys);
    IndexLookup(m, xs + ys);
    NamesAppend(xs, ys);
    var one, both := Index(first, xs + ys), Index(m, xs + ys);
    assert one.Keys == both.Keys;
    forall n | n in both
      ensures one[n] == both[n]
    {
    }
  }

  /** Two batches added one after the other register exactly what their concatenation registers. */
  lemma AddEventsAccumulates(s: Service, a: seq<EventClass>, b: seq<EventClass>)
    ensures AddEvents(AddEvents(s, Some(a)), Some(b)) == AddEvents(s, Some(a + b))
  {
    assert s.events + (a + b) == (s.events + a) + b;
    IndexOverPrefix(s.eventsForSearch, s.events + a, b);
  }

  /** The declared `eventHandlers` option is never read: it has no effect on the service. */
  lemma EventHandlersIgnored(options: EventStoreOptions, handlers: Option<map<string, EventClass>>)
    ensures Create(options.(eventHandlers := handlers)) == Create(options)
  {
  }

  /**
   Options as declared carry no `events`, so the service registers nothing
   and, once connected, only reports that no handlers were given: no
   subscribe request and no `run`.
   */
  lemma DeclaredOptionsSubscribeNothing(client: Option<Config>, consumer: Option<Config>,
                                        handlers: Option<map<string, EventClass>>)
    ensures Create(Declared(client, consumer, handlers)).Some?
    ensures Create(Declared(client, consumer, handlers)).value.events == []
    ensures Create(Declared(client, consumer, handlers)).value.eventsForSearch == map[]
    ensures Connect(Create(Declared(client, consumer, handlers)).value).effects[5] == NoHandlers
    ensures forall e :: e in Connect(Create(Declared(client, consumer, handlers)).value).effects ==> !e.Subscribe? && !e.Run?
  {
    var s := Create(Declared(client, consumer, handlers)).value;
    assert Names(s.events) == {};
  }

  // ---------------------------------------------------------------------
  // Configuration
  // ---------------------------------------------------------------------

  /**
   Without client options the client configuration is exactly the default:
   the local broker and no `clientId`, although a default client id is
   declared.
   */
  lemma ClientConfigWithoutOverride(options: EventStoreOptions)
    requires options.client.None?
    ensures Create(options).Some? ==> Create(options).value.clientConfig == DefaultClientConfig
    ensures Create(options).Some? ==> Create(options).value.clientConfig["brokers"] == Strings(["localhost:9092"])
    ensures Create(options).Some? ==> "clientId" !in Create(options).value.clientConfig
  {
  }

  /** Unless the caller supplies a `groupId`, the consumer joins the default group. */
  lemma GroupIdWithoutOverride(options: EventStoreOptions)
    requires "groupId" !in OwnKeys(options.consumer)
    ensures Create(options).Some? ==> Create(options).value.consumerConfig["groupId"] == String(DefaultGroupId)
  {
  }

  /**
   A key the caller supplies wins over the default, even when its value is
   `undefined`; the defaults' keys the caller omits are kept.
   */
  lemma CallerOptionsWin(options: EventStoreOptions, key: string)
    requires Create(options).Some?
    ensures key in OwnKeys(options.client) ==> Create(options).value.clientConfig[key] == options.client.value[key]
    ensures key in OwnKeys(options.consumer) ==> Create(options).value.consumerConfig[key] == options.consumer.value[key]
    ensures key !in OwnKeys(options.client) ==>
              (key in Create(options).value.clientConfig <==> key == "brokers")
    ensures key !in OwnKeys(options.consumer) ==>
              (key in Create(options).value.consumerConfig <==> key == "groupId")
  {
  }

  // ---------------------------------------------------------------------
  // Subscribing and routing
  // ---------------------------------------------------------------------

  /** Counts the subscribe requests among some effects. */
  function SubscribeCount(effects: seq<Effect>): (k: nat)
    ensures k <= |effects|
  {
    if |effects| == 0 then 0
    else (if effects[0].Subscribe? then 1 else 0) + SubscribeCount(effects[1..])
  }

  lemma {:induction false} SubscribeCountAppend(a: seq<Effect>, b: seq<Effect>)
    ensures SubscribeCount(a + b) == SubscribeCount(a) + SubscribeCount(b)
    decreases |a|
  {
    if |a| > 0 {
      assert (a + b)[0] == a[0];
      assert (a + b)[1..] == a[1..] + b;
      SubscribeCountAppend(a[1..], b);
    } else {
      assert a + b == b;
    }
  }

  lemma {:induction false} SubscribeCountNone(effects: seq<Effect>)
    requires forall i :: 0 <= i < |effects| ==> !effects[i].Subscribe?
    ensures SubscribeCount(effects) == 0
    decreases |effects|
  {
    if |effects| > 0 {
      SubscribeCountNone(effects[1..]);
    }
  }

  lemma {:induction false} SubscriptionsCount(events: seq<EventClass>)
    ensures SubscribeCount(Subscriptions(events)) == |events|
    decreases |events|
  {
    if |events| > 0 {
      SubscriptionsCount(events[1..]);
    }
  }

  /**
   Connecting issues exactly one subscribe request per registered class,
   duplicates included, and every subscribed topic is one the registry
   routes: a decodable message on it is never reported as unhandled.
   */
  lemma {:induction false} SubscribedTopicsRoute(s: Service)
    requires Indexed(s)
    ensures SubscribeCount(Connect(s).effects) == |s.events|
    ensures forall i :: 0 <= i < |Connect(s).effects| && Connect(s).effects[i].Subscribe? ==>
              Connect(s).effects[i].topic in s.eventsForSearch
    ensures forall m: Message :: m.topic in Names(s.events) && Decodes(m) ==> !EachMessage(s, m)[0].Warn?
  {
    var effects := Connect(s).effects;
    var opening := effects[..5];
    assert effects == opening + SubscribeEffects(s.events);
    SubscribeCountAppend(opening, SubscribeEffects(s.events));
    SubscribeCountNone(opening);
    SubscriptionsCount(s.events);
    if |s.events| > 0 {
      SubscribeCountAppend(Subscriptions(s.events), [Run]);
      SubscribeCountNone([Run]);
    } else {
      SubscribeCountNone([NoHandlers]);
    }
    forall i | 0 <= i < |effects| && effects[i].Subscribe?
      ensures effects[i].topic in s.eventsForSearch
    {
      assert s.events[i - 5].name in Names(s.events);
    }
  }

  /** With no registered class, connecting reports that and neither subscribes nor runs the consumer. */
  lemma EmptyRegistryNeverRuns(s: Service)
    requires |s.events| == 0
    ensures Connect(s).effects[5..] == [NoHandlers]
    ensures Run !in Connect(s).effects
    ensures SubscribeCount(Connect(s).effects) == 0
  {
    var effects := Connect(s).effects;
    assert effects == effects[..5] + [NoHandlers];
    SubscribeCountAppend(effects[..5], [NoHandlers]);
    SubscribeCountNone(effects);
  }

  // ---------------------------------------------------------------------
  // Publish and consume
  // ---------------------------------------------------------------------

  /**
   The round trip through Kafka: publishing an event of a registered class,
   when that class is the last one registered under its name and rebuilds
   its events from their field values, sends one message that the consumer
   turns back into the very same event.
   */
  lemma PublishRoutesBack(s: Service, i: nat, e: Event)
    requires Indexed(s) && s.producer && s.subject.Some?
    requires i < |s.events| && Rebuilds(s.events[i], e)
    requires forall j :: i < j < |s.events| ==> s.events[j].name != e.typeName
    ensures Publish(s, Defined(e)) == [Send(e.typeName, [Serialize(e)])]
    ensures EachMessage(s, Message(e.typeName, Some(Serialize(e)))) == [Next(s.subject.value, e)]
  {
    LastIndexUnique(s.events, e.typeName, i);
    var m := Message(e.typeName, Some(Serialize(e)));
    assert Decoded(m) == Obj(e.fields);
    assert Construct(s.eventsForSearch[e.typeName], Arguments(m)) == Some(e);
  }

  /** An unhandled topic is only reported: the next message is still consumed. */
  lemma WarningDoesNotStopConsumption(s: Service, m: Message, rest: seq<Message>)
    requires Decodes(m) && m.topic !in s.eventsForSearch
    ensures Deliver(s, [m] + rest) == [Warn(m.topic)] + Deliver(s, rest)
  {
    assert ([m] + rest)[1..] == rest;
  }

  /**
   When every message routes, the consumer pushes exactly one event per
   message into the bound stream, in delivery order, each built by the
   class registered under the message's topic from its decoded values.
   */
  lemma DeliverInOrder(s: Service, msgs: seq<Message>)
    requires forall i :: 0 <= i < |msgs| ==> Routable(s, msgs[i])
    ensures |Deliver(s, msgs)| == |msgs|
    ensures forall i :: 0 <= i < |msgs| ==>
              (Routable(s, msgs[i]) && Deliver(s, msgs)[i] == Next(s.subject.value, Inbound(s, msgs[i])))
  {
  }

  // ---------------------------------------------------------------------
  // Lifecycle
  // ---------------------------------------------------------------------

  /** Disconnecting a service that never connected requests nothing. */
  lemma DisconnectBeforeConnect(options: EventStoreOptions, producerRejects: bool)
    ensures Create(options).Some? ==> Disconnect(Create(options).value, producerRejects) == []
  {
  }

  /** After `onModuleInit` both handles exist, so disconnecting closes the producer and then the consumer. */
  lemma DisconnectAfterInit(s: Service, stream: StreamId)
    ensures Disconnect(OnModuleInit(s, stream).service, false) == [DisconnectProducer, DisconnectConsumer]
  {
  }

  // ---------------------------------------------------------------------
  // Worked examples
  // ---------------------------------------------------------------------

  /**
   Two registered classes, `OrderPlaced` and `OrderCancelled`: connecting
   subscribes to those two topics, in that order, and runs the consumer.
   */
  lemma TwoTopicsScenario(placed: EventClass, cancelled: EventClass)
    requires placed.name == "OrderPlaced" && cancelled.name == "OrderCancelled"
    ensures Connect(Create(EventStoreOptions(None, None, None, Defined([placed, cancelled]))).value).effects[5..]
            == [Subscribe("OrderPlaced", false), Subscribe("OrderCancelled", false), Run]
  {
    var s := Create(EventStoreOptions(None, None, None, Defined([placed, cancelled]))).value;
    assert s.events == [placed, cancelled];
    var subscribe := SubscribeEffects(s.events);
    assert |subscribe| == 3;
    assert subscribe == [Subscribe("OrderPlaced", false), Subscribe("OrderCancelled", false), Run];
  }

  /** `Foo`, an event class `constructor(public id, public amount)`. */
  const Foo: EventClass := ParameterClass("Foo", ["id", "amount"])

  /** Registering `Foo` alone binds the topic `Foo`, and nothing else, to it. */
  lemma FooRegistered()
    ensures Create(EventStoreOptions(None, None, None, Defined([Foo]))).Some?
    ensures Create(EventStoreOptions(None, None, None, Defined([Foo]))).value.eventsForSearch == map["Foo" := Foo]
  {
    var options := EventStoreOptions(None, None, None, Defined([Foo]));
    assert Create(options).Some?;
    var s := Create(options).value;
    assert s.events == [Foo];
    assert Names(s.events) == {"Foo"};
    LastIndexUnique(s.events, "Foo", 0);
  }

  /** A service whose registry holds `Foo` alone builds a `Foo` from the payload's values, in order. */
  lemma FooBuilt(s: Service, fields: seq<Member>)
    requires s.eventsForSearch == map["Foo" := Foo]
    requires fields == [Member("id", Str("1")), Member("amount", Str("42"))]
    ensures Builds(s, Message("Foo", Some(Document(Obj(fields)))))
    ensures Inbound(s, Message("Foo", Some(Document(Obj(fields))))) == Event("Foo", fields)
  {
    var m := Message("Foo", Some(Document(Obj(fields))));
    assert Arguments(m) == [Str("1"), Str("42")];
    var built := Assign(["id", "amount"], [Str("1"), Str("42")]);
    assert built == fields;
    assert Foo.init([Str("1"), Str("42")]) == Some(fields);
  }

  /**
   The message `{"id":"1","amount":"42"}` on topic `Foo` becomes exactly one
   `Foo` with those fields, in that order.
   */
  lemma FooScenario(stream: StreamId)
    ensures
      var s := OnModuleInit(Create(EventStoreOptions(None, None, None, Defined([Foo]))).value, stream).service;
      var fields := [Member("id", Str("1")), Member("amount", Str("42"))];
      EachMessage(s, Message("Foo", Some(Document(Obj(fields))))) == [Next(stream, Event("Foo", fields))]
  {
    FooRegistered();
    var s := OnModuleInit(Create(EventStoreOptions(None, None, None, Defined([Foo]))).value, stream).service;
    var fields := [Member("id", Str("1")), Member("amount", Str("42"))];
    assert s.subject == Some(stream);
    FooBuilt(s, fields);
  }
}

=== FILE: constants.dfy ===
/**
 Broker client and consumer configuration: the shape of a configuration
 object, the defaults the bridge ships with, and the shallow object-spread
 merge that lays caller options over those defaults.
 */
module Constants {
  import opened Json

  /**
   One configuration entry's value. A nested object or function (an `ssl`
   block, a `logCreator`) is an opaque `Reference`: a shallow merge never
   looks inside it. `Undefined` is an explicit `undefined`, which a spread
   copies like any other value.
   */
  datatype Setting =
    | Undefined
    | Flag(b: bool)
    | Number(n: int)
    | String(s: string)
    | Strings(items: seq<string>)
    | Reference(id: nat)

  /** A configuration object: its own keys and their values. */
  type Config = map<string, Setting>

  /** Declared alongside the defaults but used by none of them. */
  const DefaultClientId: string := "nestjs-event-store-module"

  const DefaultGroupId: string := "nestjs-event-store-module-consumer"

  const DefaultClientConfig: Config := map["brokers" := Strings(["localhost:9092"])]

  const DefaultConsumerConfig: Config := map["groupId" := String(DefaultGroupId)]

  /** The keys an optional object contributes to a spread. */
  function OwnKeys(o: Option<Config>): set<string>
  {
    match o
    case None => {}
    case Some(c) => c.Keys
  }

  /**
   `{ ...defaults, ...overrides }`, where spreading an absent (`undefined`
   or `null`) object contributes nothing.
   */
  function Spread(defaults: Config, overrides: Option<Config>): (r: Config)
    ensures r.Keys == defaults.Keys + OwnKeys(overrides)
    ensures forall k :: k in OwnKeys(overrides) ==> r[k] == overrides.value[k]
    ensures forall k :: k in defaults && k !in OwnKeys(overrides) ==> r[k] == defaults[k]
  {
    match overrides
    case None => defaults
    case Some(c) => defaults + c
  }

  /** Spreading nothing over the defaults yields exactly the defaults. */
  lemma SpreadNothing(defaults: Config)
    ensures Spread(defaults, None) == defaults
    ensures Spread(defaults, Some(map[])) == defaults
  {
    assert Spread(defaults, Some(map[])).Keys == defaults.Keys;
  }

  /** The default client configuration has the single key `brokers`, naming the local broker. */
  lemma DefaultClientConfigShape()
    ensures DefaultClientConfig.Keys == {"brokers"}
    ensures DefaultClientConfig["brokers"] == Strings(["localhost:9092"])
    ensures "clientId" !in DefaultClientConfig
  {
  }

  /** The default consumer configuration has the single key `groupId`, holding the default group id. */
  lemma DefaultConsumerConfigShape()
    ensures DefaultConsumerConfig.Keys == {"groupId"}
    ensures DefaultConsumerConfig["groupId"] == String("nestjs-event-store-module-consumer")
  {
  }
}

=== FILE: event_store_service.dfy ===
/**
 The bridge between the application's in-process event bus and a Kafka
 cluster. Every operation is a pure function of the service's state that
 returns the effects it has on the outside world: requests to the Kafka
 client, pushes into the local event stream, warnings and escaping
 exceptions. What Kafka answers is not modelled; where an answer changes the
 control flow it is a parameter.
 */
module EventStore {
  import opened Json
  import opened Events
  import opened Constants
  import opened Interfaces

  /** Identifies the local event stream (an RxJS subject) the bridge pushes into. */
  type StreamId = nat

  /** The exceptions an operation can let escape. */
  datatype Failure =
    | NullMessageValue   // a message without a value: `message.value.toString()`
    | InvalidJson        // `JSON.parse` of text that is not JSON
    | NullPayload        // `Object.values(null)`
    | ConstructorThrew   // the registered event class's constructor threw
    | NoSubject          // `subject$.next` before any stream was bound
    | NoProducer         // `producer.send` before `connect` created a producer
    | CloseRejected      // the producer's `disconnect` rejected

  /** One observable effect of the bridge. */
  datatype Effect =
    | CreateClient(clientConfig: Config)
    | CreateProducer
    | ConnectProducer
    | CreateConsumer(consumerConfig: Config)
    | ConnectConsumer
    | Subscribe(topic: string, fromBeginning: bool)
    | NoHandlers
    | Run
    | Send(topic: string, messages: seq<Text>)
    | Next(stream: StreamId, event: Event)
    | Warn(topic: string)
    | DisconnectProducer
    | DisconnectConsumer
    | Fault(failure: Failure)

  /** A consumed Kafka message: its topic and its value, absent for a tombstone. */
  datatype Message = Message(topic: string, value: Option<Text>)

  /**
   The service's fields: the accumulated event classes, the name-to-class
   lookup built from them, the merged configurations, whether the producer
   and consumer handles exist, and the stream inbound events go to.
   */
  datatype Service = Service(
    events: seq<EventClass>,
    eventsForSearch: map<string, EventClass>,
    clientConfig: Config,
    consumerConfig: Config,
    producer: bool,
    consumer: bool,
    subject: Option<StreamId>)

  /** A new state together with the effects that produced it. */
  datatype Step = Step(service: Service, effects: seq<Effect>)

  // ---------------------------------------------------------------------
  // Event registry
  // ---------------------------------------------------------------------

  /** The class names occurring in a list of event classes. */
  function Names(xs: seq<EventClass>): set<string>
  {
    set i | 0 <= i < |xs| :: xs[i].name
  }

  lemma NamesAppend(a: seq<EventClass>, b: seq<EventClass>)
    ensures Names(a + b) == Names(a) + Names(b)
  {
    forall n | n in Names(a + b) ensures n in Names(a) + Names(b) {
      var i :| 0 <= i < |a + b| && (a + b)[i].name == n;
      if i >= |a| {
        assert b[i - |a|].name == n;
      }
    }
    forall n | n in Names(a) + Names(b) ensures n in Names(a + b) {
      if n in Names(b) {
        var j :| 0 <= j < |b| && b[j].name == n;
        assert (a + b)[|a| + j].name == n;
      } else {
        var j :| 0 <= j < |a| && a[j].name == n;
        assert (a + b)[j].name == n;
      }
    }
  }

  /** The position of the last class named `n`. */
  function LastIndex(xs: seq<EventClass>, n: string): (k: nat)
    requires n in Names(xs)
    ensures k < |xs| && xs[k].name == n
    ensures forall j :: k < j < |xs| ==> xs[j].name != n
    decreases |xs|
  {
    var last := |xs| - 1;
    if xs[last].name == n then last
    else
      assert n in Names(xs[..last]) by {
        var i :| 0 <= i < |xs| && xs[i].name == n;
        assert xs[..last][i].name == n;
      }
      LastIndex(xs[..last], n)
  }

  /** Any position that holds the name and is followed by no other occurrence is the last one. */
  lemma LastIndexUnique(xs: seq<EventClass>, n: string, k: nat)
    requires k < |xs| && xs[k].name == n
    requires forall j :: k < j < |xs| ==> xs[j].name != n
    ensures n in Names(xs)
    ensures LastIndex(xs, n) == k
  {
  }

  /** The registry loop: every class of the list, in order, is stored under its name. */
  function Index(m: map<string, EventClass>, xs: seq<EventClass>): map<string, EventClass>
    decreases |xs|
  {
    if |xs| == 0 then m else Index(m[xs[0].name := xs[0]], xs[1..])
  }

  /** Storing a list under its names: the last class of each name wins, other keys are kept. */
  lemma {:induction false} IndexLookup(m: map<string, EventClass>, xs: seq<EventClass>)
    ensures Index(m, xs).Keys == m.Keys + Names(xs)
    ensures forall n :: n in Names(xs) ==> Index(m, xs)[n] == xs[LastIndex(xs, n)]
    ensures forall n :: n in m && n !in Names(xs) ==> Index(m, xs)[n] == m[n]
    decreases |xs|
  {
    if |xs| > 0 {
      var x, tail := xs[0], xs[1..];
      var m' := m[x.name := x];
      IndexLookup(m', tail);
      assert xs == [x] + tail;
      NamesAppend([x], tail);
      assert Names([x]) == {x.name};
      forall n | n in Names(xs)
        ensures Index(m, xs)[n] == xs[LastIndex(xs, n)]
      {
        if n in Names(tail) {
          var k := LastIndex(tail, n);
          LastIndexUnique(xs, n, k + 1);
        } else {
          LastIndexUnique(xs, n, 0);
        }
      }
    }
  }

  /** The registry invariant: the lookup holds exactly the listed names, each bound to its last class. */
  ghost predicate Indexed(s: Service)
  {
    && s.eventsForSearch.Keys == Names(s.events)
    && forall n :: n in s.eventsForSearch ==> s.eventsForSearch[n] == s.events[LastIndex(s.events, n)]
  }

  /** The classes a possibly absent batch contributes: an absent batch defaults to none. */
  function Batch(batch: Option<seq<EventClass>>): seq<EventClass>
  {
    match batch
    case None => []
    case Some(xs) => xs
  }

  /** `addEvents`: append the batch, then store every accumulated class under its name. */
  function AddEvents(s: Service, batch: Option<seq<EventClass>>): (r: Service)
    ensures r.events == s.events + Batch(batch)
    ensures r.eventsForSearch.Keys == s.eventsForSearch.Keys + Names(r.events)
    ensures forall n :: n in Names(r.events) ==> r.eventsForSearch[n] == r.events[LastIndex(r.events, n)]
    ensures forall n :: n in s.eventsForSearch && n !in Names(r.events) ==>
              r.eventsForSearch[n] == s.eventsForSearch[n]
    ensures Indexed(s) ==> Indexed(r)
    ensures r == s.(events := r.events, eventsForSearch := r.eventsForSearch)
  {
    var events := s.events + Batch(batch);
    IndexLookup(s.eventsForSearch, events);
    NamesAppend(s.events, Batch(batch));
    s.(events := events, eventsForSearch := Index(s.eventsForSearch, events))
  }

  // ---------------------------------------------------------------------
  // Construction
  // ---------------------------------------------------------------------

  /** The classes `options.events` supplies: none unless it is a list. */
  function Supplied(events: Nullish<seq<EventClass>>): seq<EventClass>
  {
    match events
    case Defined(xs) => xs
    case _ => []
  }

  /**
   The constructor: register `options.events`, then lay the caller's client
   and consumer options over the defaults. No handle and no stream exist yet.
   `addEvents`'s default `[]` replaces only `undefined`: an explicit `null`
   reaches the array spread, which throws, so no service is constructed
   (`None`).
   */
  function Create(options: EventStoreOptions): (r: Option<Service>)
    ensures r.None? <==> options.events.JsNull?
    ensures r.Some? ==> Indexed(r.value)
    ensures r.Some? ==> r.value.events == Supplied(options.events)
    ensures r.Some? ==> forall n :: n in r.value.eventsForSearch <==> n in Names(Supplied(options.events))
    ensures r.Some? ==> r.value.clientConfig == Spread(DefaultClientConfig, options.client)
    ensures r.Some? ==> r.value.consumerConfig == Spread(DefaultConsumerConfig, options.consumer)
    ensures r.Some? ==> !r.value.producer && !r.value.consumer && r.value.subject.None?
  {
    var initial := Service([], map[], Spread(DefaultClientConfig, options.client),
                           Spread(DefaultConsumerConfig, options.consumer), false, false, None);
    assert Names([]) == {};
    match options.events
    case JsNull => None
    case JsUndefined => Some(AddEvents(initial, None))
    case Defined(xs) => Some(AddEvents(initial, Some(xs)))
  }

  // ---------------------------------------------------------------------
  // Connecting and subscribing
  // ---------------------------------------------------------------------

  /** One subscribe request per class, in list order, duplicates included, never from the beginning. */
  function Subscriptions(events: seq<EventClass>): (r: seq<Effect>)
    ensures |r| == |events|
    ensures forall i :: 0 <= i < |events| ==> r[i] == Subscribe(events[i].name, false)
    decreases |events|
  {
    if |events| == 0 then []
    else [Subscribe(events[0].name, false)] + Subscriptions(events[1..])
  }

  /** `subscribe`: the requests, then `run`; with no classes, only the report that none were given. */
  function SubscribeEffects(events: seq<EventClass>): (r: seq<Effect>)
    ensures |events| == 0 ==> r == [NoHandlers]
    ensures |r| == |events| + 1
    ensures |events| > 0 ==> r[|events|] == Run
    ensures forall i :: 0 <= i < |events| ==> r[i] == Subscribe(events[i].name, false)
    ensures Run in r <==> |events| > 0
  {
    var subscriptions := Subscriptions(events);
    if |subscriptions| == 0 then [NoHandlers] else subscriptions + [Run]
  }

  /** `connect`: create the client, producer and consumer, connect both, then subscribe. */
  function Connect(s: Service): (r: Step)
    ensures r.service == s.(producer := true, consumer := true)
    ensures |r.effects| == 6 + |s.events|
    ensures r.effects[0] == CreateClient(s.clientConfig)
    ensures r.effects[1] == CreateProducer && r.effects[2] == ConnectProducer
    ensures r.effects[3] == CreateConsumer(s.consumerConfig)
    ensures r.effects[4] == ConnectConsumer
    ensures forall i :: 0 <= i < 5 ==> !r.effects[i].Subscribe? && !r.effects[i].Run? && !r.effects[i].NoHandlers?
    ensures r.effects[5..] == SubscribeEffects(s.events)
    ensures forall i :: 0 <= i < |s.events| ==> r.effects[5 + i] == Subscribe(s.events[i].name, false)
    ensures Run in r.effects <==> |s.events| > 0
  {
    var opening := [CreateClient(s.clientConfig), CreateProducer, ConnectProducer,
                    CreateConsumer(s.consumerConfig), ConnectConsumer];
    Step(s.(producer := true, consumer := true), opening + SubscribeEffects(s.events))
  }

  /**
   `bridgeEventsTo`: later inbound events go to `stream`, with no new
   subscription: every message that builds an event pushes the same event
   as before, now into `stream`, and every push goes there. The registry,
   the configurations and the handles are untouched.
   */
  function BridgeEventsTo(s: Service, stream: StreamId): (r: Service)
    ensures r.subject == Some(stream)
    ensures forall m: Message :: Builds(s, m) ==> EachMessage(r, m) == [Next(stream, Inbound(s, m))]
    ensures forall m: Message :: EachMessage(r, m)[0].Next? ==> EachMessage(r, m)[0].stream == stream
    ensures r.events == s.events && r.eventsForSearch == s.eventsForSearch
    ensures r.clientConfig == s.clientConfig && r.consumerConfig == s.consumerConfig
    ensures r.producer == s.producer && r.consumer == s.consumer
  {
    s.(subject := Some(stream))
  }

  /** `onModuleInit`: connect, and bind the event bus's stream before any message can arrive. */
  function OnModuleInit(s: Service, stream: StreamId): (r: Step)
    ensures r.service.producer && r.service.consumer && r.service.subject == Some(stream)
    ensures r.service.events == s.events && r.service.eventsForSearch == s.eventsForSearch
    ensures r.effects == Connect(s).effects
  {
    var connected := Connect(s);
    Step(BridgeEventsTo(connected.service, stream), connected.effects)
  }

  // ---------------------------------------------------------------------
  // Consuming
  // ---------------------------------------------------------------------

  /** The message has a value and that value is JSON. */
  ghost predicate Decodes(m: Message)
  {
    m.value.Some? && Parse(m.value.value).Some?
  }

  ghost function Decoded(m: Message): Value
    requires Decodes(m)
  {
    Parse(m.value.value).value
  }

  /** The constructor arguments a decodable, non-null payload yields. */
  ghost function Arguments(m: Message): seq<Value>
    requires Decodes(m) && !Decoded(m).Null?
  {
    ObjectValues(Decoded(m)).value
  }

  /** The registered class builds an event from the message: it decodes, its topic is registered, its payload has values, the constructor does not throw. */
  ghost predicate Builds(s: Service, m: Message)
  {
    && Decodes(m)
    && m.topic in s.eventsForSearch
    && !Decoded(m).Null?
    && Construct(s.eventsForSearch[m.topic], Arguments(m)).Some?
  }

  /** The event the registered class builds from the message's decoded values, in order. */
  ghost function Inbound(s: Service, m: Message): Event
    requires Builds(s, m)
  {
    Construct(s.eventsForSearch[m.topic], Arguments(m)).value
  }

  /** The message reaches the stream: an event is built and a stream is bound. */
  ghost predicate Routable(s: Service, m: Message)
  {
    Builds(s, m) && s.subject.Some?
  }

  /** `eachMessage`: exactly one effect per message — a push, a warning or an escaping exception. */
  function EachMessage(s: Service, m: Message): (r: seq<Effect>)
    ensures |r| == 1
    ensures r[0].Next? <==> Routable(s, m)
    ensures Routable(s, m) ==> r[0] == Next(s.subject.value, Inbound(s, m))
    ensures r[0] == Fault(ConstructorThrew) <==>
              Decodes(m) && m.topic in s.eventsForSearch && !Decoded(m).Null? && !Builds(s, m)
    ensures r[0].Warn? <==> Decodes(m) && m.topic !in s.eventsForSearch
    ensures m.value.None? ==> r == [Fault(NullMessageValue)]
    ensures m.value.Some? && Parse(m.value.value).None? ==> r == [Fault(InvalidJson)]
    ensures Decodes(m) && m.topic in s.eventsForSearch && Decoded(m).Null? ==> r == [Fault(NullPayload)]
    ensures Builds(s, m) && s.subject.None? ==> r == [Fault(NoSubject)]
    ensures r[0].Warn? ==> r[0].topic == m.topic
    ensures r[0].Fault? <==> !Decodes(m) || (m.topic in s.eventsForSearch && !Routable(s, m))
  {
    match m.value
    case None => [Fault(NullMessageValue)]
    case Some(text) =>
      match Parse(text)
      case None => [Fault(InvalidJson)]
      case Some(value) =>
        if m.topic in s.eventsForSearch then
          match ObjectValues(value)
          case None => [Fault(NullPayload)]
          case Some(args) =>
            match Construct(s.eventsForSearch[m.topic], args)
            case None => [Fault(ConstructorThrew)]
            case Some(event) =>
              match s.subject
              case None => [Fault(NoSubject)]
              case Some(stream) => [Next(stream, event)]
        else
          [Warn(m.topic)]
  }

  /**
   The consumer loop over the messages of one partition, one at a time in
   delivery order. An exception escaping a message ends the trace: what the
   Kafka client does next is not part of this model.
   */
  function Deliver(s: Service, msgs: seq<Message>): (trace: seq<Effect>)
    ensures |trace| <= |msgs|
    ensures forall i :: 0 <= i < |trace| ==> trace[i] == EachMessage(s, msgs[i])[0]
    ensures forall i :: 0 <= i < |trace| - 1 ==> !trace[i].Fault?
    ensures |trace| < |msgs| ==> |trace| > 0 && trace[|trace| - 1].Fault?
    ensures (forall i :: 0 <= i < |msgs| ==> !EachMessage(s, msgs[i])[0].Fault?) ==> |trace| == |msgs|
    decreases |msgs|
  {
    if |msgs| == 0 then []
    else
      var first := EachMessage(s, msgs[0]);
      if first[0].Fault? then first else first + Deliver(s, msgs[1..])
  }

  // ---------------------------------------------------------------------
  // Publishing and disconnecting
  // ---------------------------------------------------------------------

  /** `publish`: `undefined` and `null` are ignored; any event is one send to the topic named after its class. */
  function Publish(s: Service, event: Nullish<Event>): (r: seq<Effect>)
    ensures event.JsUndefined? || event.JsNull? ==> r == []
    ensures event.Defined? ==> |r| == 1
    ensures event.Defined? && s.producer ==>
              && r[0].Send?
              && r[0].topic == event.value.typeName
              && |r[0].messages| == 1
              && Parse(r[0].messages[0]) == Some(Obj(event.value.fields))
    ensures event.Defined? && !s.producer ==> r == [Fault(NoProducer)]
  {
    match event
    case JsUndefined => []
    case JsNull => []
    case Defined(e) =>
      if s.producer then [Send(e.typeName, [Serialize(e)])] else [Fault(NoProducer)]
  }

  /**
   `disconnect`: each handle that exists is closed, producer first; the
   second close is awaited only after the first, so a rejected producer
   close skips the consumer's. The handles are not cleared.
   */
  function Disconnect(s: Service, producerRejects: bool): (r: seq<Effect>)
    ensures |r| <= 2
    ensures |r| == (if s.producer then 1 else 0) + (if s.producer && producerRejects then 1 else if s.consumer then 1 else 0)
    ensures forall e :: e in r ==> e == DisconnectProducer || e == DisconnectConsumer || e == Fault(CloseRejected)
    ensures s.producer ==> |r| > 0 && r[0] == DisconnectProducer
    ensures !s.producer && !s.consumer ==> r == []
    ensures DisconnectProducer in r <==> s.producer
    ensures DisconnectConsumer in r <==> s.consumer && !(s.producer && producerRejects)
    ensures Fault(CloseRejected) in r <==> s.producer && producerRejects
    ensures s.producer && s.consumer && !producerRejects ==> r == [DisconnectProducer, DisconnectConsumer]
  {
    var closeProducer := if s.producer then [DisconnectProducer] else [];
    if s.producer && producerRejects then closeProducer + [Fault(CloseRejected)]
    else closeProducer + (if s.consumer then [DisconnectConsumer] else [])
  }
}

=== FILE: events.dfy ===
/**
 Domain events and the classes that build them. An event is its class name
 (what `event.constructor.name` yields) and its own enumerable fields in
 insertion order; a class is its name and what its constructor does with
 positional arguments.
 */
module Events {
  import opened Json

  datatype Event = Event(typeName: string, fields: seq<Member>)

  /**
   An event class: `name` is the class's `name`; `init` maps the
   constructor's arguments to the instance's fields, or to `None` when the
   constructor throws.
   */
  datatype EventClass = EventClass(name: string, init: seq<Value> -> Option<seq<Member>>)

  /** `new C(...args)`: `None` when the constructor throws; otherwise an instance whose type name is the class's name. */
  function Construct(c: EventClass, args: seq<Value>): (e: Option<Event>)
    ensures e.None? <==> c.init(args).None?
    ensures e.Some? ==> e.value.typeName == c.name
  {
    match c.init(args)
    case None => None
    case Some(fields) => Some(Event(c.name, fields))
  }

  /** `JSON.stringify(event)`: the event's fields as one object; the type name is not part of it. */
  function Serialize(e: Event): (t: Text)
    ensures Parse(t) == Some(Obj(e.fields))
  {
    Stringify(Obj(e.fields))
  }

  /** Class `c` rebuilds `e` from the values of `e`'s own fields, taken in order. */
  ghost predicate Rebuilds(c: EventClass, e: Event)
  {
    e.typeName == c.name && c.init(MemberValues(e.fields)) == Some(e.fields)
  }

  /**
   The fields a constructor with TypeScript parameter properties
   (`constructor(public a, public b)`) sets: parameter i receives argument i.
   */
  function Assign(params: seq<string>, args: seq<Value>): (ms: seq<Member>)
    ensures |ms| == if |params| < |args| then |params| else |args|
    ensures forall i :: 0 <= i < |ms| ==> ms[i] == Member(params[i], args[i])
    decreases |params|
  {
    if |params| == 0 || |args| == 0 then []
    else [Member(params[0], args[0])] + Assign(params[1..], args[1..])
  }

  /** A class whose constructor takes its fields, in order, as parameter properties, and never throws. */
  function ParameterClass(name: string, params: seq<string>): (c: EventClass)
    ensures c.name == name
  {
    EventClass(name, args => Some(Assign(params, args)))
  }

  /** A parameter-property class rebuilds every event of its name whose keys are its parameters. */
  lemma ParameterClassRebuilds(e: Event)
    ensures Rebuilds(ParameterClass(e.typeName, Keys(e.fields)), e)
  {
    var c := ParameterClass(e.typeName, Keys(e.fields));
    var ms := c.init(MemberValues(e.fields)).value;
    forall i | 0 <= i < |ms|
      ensures ms[i] == e.fields[i]
    {
    }
    assert ms == e.fields;
  }
}

=== FILE: json.dfy ===
/**
 The JavaScript values the bridge handles: JSON documents (the wire payload),
 the `undefined`/`null` distinction its `publish` guards against, and the two
 built-ins it calls on a decoded payload, `JSON.parse` and `Object.values`.

 JSON text is kept abstract: a `Text` is either a document, represented by
 the value it parses to, or text that is not JSON at all.
 */
module Json {

  datatype Option<+T> = None | Some(value: T)

  /** A JSON value (RFC 8259). Numbers are kept as mathematical integers. */
  datatype Value =
    | Null
    | Bool(b: bool)
    | Num(n: int)
    | Str(s: string)
    | Arr(items: seq<Value>)
    | Obj(members: seq<Member>)

  /** One key/value pair of an object, in the object's own key order. */
  datatype Member = Member(key: string, value: Value)

  /** Message bytes after `toString()`: a JSON document, or anything else. */
  datatype Text = Document(root: Value) | Malformed(raw: string)

  /** A JavaScript argument that may be `undefined`, `null` or an actual value. */
  datatype Nullish<+T> = JsUndefined | JsNull | Defined(value: T)

  /** `JSON.stringify` of a value. */
  function Stringify(v: Value): (t: Text)
    ensures Parse(t) == Some(v)
  {
    Document(v)
  }

  /** `JSON.parse`: `None` stands for the `SyntaxError` it throws. */
  function Parse(t: Text): (r: Option<Value>)
    ensures r.None? <==> t.Malformed?
  {
    match t
    case Document(v) => Some(v)
    case Malformed(_) => None
  }

  /** The keys of an object, in order. */
  function Keys(ms: seq<Member>): (ks: seq<string>)
    ensures |ks| == |ms|
    ensures forall i :: 0 <= i < |ms| ==> ks[i] == ms[i].key
  {
    seq(|ms|, i requires 0 <= i < |ms| => ms[i].key)
  }

  /** The values of an object, in key order. */
  function MemberValues(ms: seq<Member>): (vs: seq<Value>)
    ensures |vs| == |ms|
    ensures forall i :: 0 <= i < |ms| ==> vs[i] == ms[i].value
    decreases |ms|
  {
    if |ms| == 0 then [] else [ms[0].value] + MemberValues(ms[1..])
  }

  /** The one-character strings of a string, as `Object.values` lists them. */
  function Characters(s: string): (vs: seq<Value>)
    ensures |vs| == |s|
    ensures forall i :: 0 <= i < |s| ==> vs[i] == Str([s[i]])
  {
    seq(|s|, i requires 0 <= i < |s| => Str([s[i]]))
  }

  /**
   `Object.values` of a decoded value: the members' values of an object, the
   elements of an array, the characters of a string, nothing for a number or
   a boolean; `None` stands for the `TypeError` it throws on `null`.
   */
  function ObjectValues(v: Value): (r: Option<seq<Value>>)
    ensures r.None? <==> v.Null?
    ensures v.Obj? ==> (r.Some? && |r.value| == |v.members|
      && forall i :: 0 <= i < |v.members| ==> r.value[i] == v.members[i].value)
    ensures v.Arr? ==> r == Some(v.items)
    ensures v.Str? ==> r == Some(Characters(v.s))
    ensures v.Num? || v.Bool? ==> r == Some([])
  {
    match v
    case Null => None
    case Bool(_) => Some([])
    case Num(_) => Some([])
    case Str(s) => Some(Characters(s))
    case Arr(items) => Some(items)
    case Obj(members) => Some(MemberValues(members))
  }
}

=== FILE: options.dfy ===
/**
 The options object handed to the bridge through dependency injection.
 */
module Interfaces {
  import opened Json
  import opened Events
  import opened Constants

  /**
   The declared options are `client`, `consumer` and `eventHandlers`; the
   bridge's constructor also reads `events`, which the declaration does not
   list, so in practice it is absent. Each field may be absent; `events`
   may also be an explicit `null`, which the parameter default of
   `addEvents` does not replace.
   */
  datatype EventStoreOptions = EventStoreOptions(
    client: Option<Config>,
    consumer: Option<Config>,
    eventHandlers: Option<map<string, EventClass>>,
    events: Nullish<seq<EventClass>>)

  /** Options exactly as declared: `events` is `undefined`. */
  function Declared(client: Option<Config>, consumer: Option<Config>,
                    eventHandlers: Option<map<string, EventClass>>): EventStoreOptions
  {
    EventStoreOptions(client, consumer, eventHandlers, JsUndefined)
  }
}
